=== FILE: README.md ===
# rui reactive core, modelled in Dafny

This project models the reactive core of the rui UI toolkit: shared `State`
cells, the view tree (`EmptyView`, `Text`, `Button`, `Stack`, `StateView`),
event routing through `View::process`, and the per-node layout cache used
by the leaf shapes (`Circle`, `Rectangle`).

Views are immutable values. The only state is a store of cells and a
layout cache, and every operation is a pure function from old state to new
state:

- `cells.dfy` (module `Cells`): the store maps cell references to a value
  and a borrow flag. A `State` handle is a cell reference, and `Clone` copies
  the reference, so every clone sees the same cell. `Get` is
  `Binding::get`. It sets the flag, `Release` clears it, and a second access
  while the flag is set fails with `AlreadyBorrowed`. That failure is the
  `RefCell` panic in the source.
- `callbacks.dfy` (module `Callbacks`): a button's callback is one of a closed
  set of actions on the cell of a captured handle: increment, decrement, set,
  or nothing. Values are `usize`, with the maximum written out. Adding one to
  the maximum fails with `Overflow`, and taking one from zero fails with
  `Underflow`. Both are panics in a debug build.
- `format.dfy` (module `Format`): `{:?}` of a `usize`, as decimal digits, with
  its inverse.
- `views.dfy` (module `Views`): the view datatype and `Process`. A state
  view's builder closure comes from a closed set (`Builder`).
  `Instantiate` runs a builder on the handle and on the cell's current value.
- `dispatch.dfy` (module `Dispatch`): a second, iterative dispatcher that uses
  an explicit worklist. It is proved equal to `Process`.
- `counters.dfy` (module `Counters`): the `counter`, `counter2` and `counter3`
  views of the library's tests, and what pressing their buttons does.
- `shapes.dfy` (module `Shapes`): the shape contract, where each call also
  gets the node's `ViewID` and the `Context`. Layout writes a box into the
  cache. Geometry reads the box back, or inserts the default box. Hit-testing
  answers the node's own id or nothing.

A traversal that would panic returns `Err`. A handle always refers to a live
cell in the source, because of `Rc`. So the cell operations require the
cell to be allocated, and `Process` requires every cell the tree mentions to
be allocated.

The code has two `View` contracts. `src/lib.rs` has an event-only one, and
`src/shapes.rs` has one that threads an id, a context and a renderer.
The model keeps them apart, as the code does: `Views.Process` follows
lib.rs and `Shapes.Process` follows shapes.rs.

## Model

| member | source | states |
|---|---|---|
| Cells.New | src/lib.rs:16-20 | `State::new` allocates a cell that was not allocated before. The cell holds the initial value and is not borrowed. Every existing cell is kept as it was. |
| Cells.Get | src/lib.rs:27-32 | `Binding::get` fails with `AlreadyBorrowed` exactly when the cell's access is already live. Otherwise it marks the cell borrowed and keeps its value. |
| Cells.Assign | src/lib.rs:22-24 | Writing through a live access changes only that cell's value. The access stays live. |
| Cells.Release | src/lib.rs:22-24 | Dropping the access clears the cell's borrow flag and keeps its value. |
| Cells.Read | src/lib.rs:28-31 | `*h.get()` as a value is the cell's current value. It fails exactly when the cell is borrowed. |
| Cells.Set | src/lib.rs:22-24 | `set` fails exactly when the cell is borrowed. Otherwise the cell holds the new value, unborrowed, and every other cell is unchanged. |
| Cells.Clone | src/lib.rs:10-13 | A clone names the same cell as the original handle. |
| Cells.ReadReleases | src/lib.rs:28-31 | Acquiring and then releasing leaves the store as it was. What the guard sees is what `Read` returns. |
| Cells.CloneAliases | src/lib.rs:10-24 | A value set through a handle is read back through any clone of that handle. |
| Cells.TestStateClone | src/lib.rs:153-158 | `State::new(0)`, then clone, then `set(42)`: the clone reads 42. |
| Cells.OverlappingAccessFails | src/lib.rs:28-31 | While one access is live, a `get`, a read or a `set` through any clone of the handle fails. |
| Cells.SetLastWins | src/lib.rs:22-24 | `set` replaces the whole value, so a second `set` wipes out the first. |
| Format.Decimal | src/lib.rs:200 | `{:?}` of a `usize` is a non-empty string of digits with no leading zero. |
| Format.ParseDecimalOfDecimal | src/lib.rs:174 | Reading the printed digits back gives the number. |
| Format.DecimalInjective | src/lib.rs:174 | Two numbers print the same exactly when they are equal. |
| Format.DecimalIsNotAWord | src/lib.rs:174 | A printed count never equals a label that starts with a non-digit, such as "increment". |
| Callbacks.Run | src/lib.rs:202-207 | A callback touches only its target cell. It fails with `AlreadyBorrowed` if that cell is borrowed. Otherwise increment adds one, or fails with `Overflow` at the maximum. Decrement subtracts one, or fails with `Underflow` at zero. Set stores its value. The no-op callback leaves the store unchanged. |
| Callbacks.IncrementDecrementInverse | src/lib.rs:202-207 | An increment followed by a decrement gives back the original store, and so does the reverse order. |
| Callbacks.IncrementStores | src/lib.rs:202-204 | An increment that succeeds leaves the store with exactly one change: the target cell holds one more and is no longer borrowed. |
| Callbacks.DecrementStores | src/lib.rs:205-207 | A decrement that succeeds leaves the store with exactly one change: the target cell holds one less and is no longer borrowed. |
| Views.Instantiate | src/lib.rs:53-64 | The view a builder produces has the builder's size. It touches no cells except the builder's own and the bound handle's. |
| Views.StateScope | src/lib.rs:67-69 | `state(initial, f)` is a state view with builder `f` over a newly allocated cell holding `initial`. Every other cell is unchanged. |
| Views.NewStack | src/lib.rs:138-140 | `Stack::new` has no children. |
| Views.Push | src/lib.rs:142-144 | `push` adds exactly one child, at the end, and keeps the existing children in order. |
| Views.Process | src/lib.rs:46-133 | Processing changes only the values of cells the tree mentions. It allocates nothing and changes no borrow flag. If no access is live when processing starts, it never fails with `AlreadyBorrowed`. |
| Views.ProcessAll | src/lib.rs:129-133 | Processing a stack's children has the same frame guarantees as `Process`. |
| Views.EmptyViewIgnoresEvents | src/lib.rs:46-51 | `EmptyView` leaves the store unchanged for every event. |
| Views.TextIgnoresEvents | src/lib.rs:75-80 | `Text` leaves the store unchanged for every event, including one that names its own text. |
| Views.ButtonFiresOnItsLabel | src/lib.rs:97-105 | A button runs its callback when the pressed label equals its text, and leaves the store unchanged for any other label. If the callback would change the store, the store changes exactly when the label matches. |
| Views.Unmatched | src/lib.rs:97-133 | An event whose label is on no button of the tree leaves the store unchanged. State views are rebuilt from the current store when their buttons are counted. |
| Views.UnmatchedAll | src/lib.rs:129-133 | The same holds for a stack's children. |
| Views.ProcessAllAppend | src/lib.rs:129-133 | Children are processed in declaration order. Processing `a + b` means processing `a`, then processing `b` on the store that `a` left. A failure in `a` stops the traversal. |
| Views.ProcessAllCons | src/lib.rs:129-133 | The first child is processed before the rest. |
| Views.ProcessPush | src/lib.rs:142-144 | A pushed child is processed after every child that was already in the stack. |
| Views.StateViewRebuilds | src/lib.rs:62-64 | A state view rebuilds its child from the cell's current value and passes the event to that child. If the builder reads the cell (`*count.get()`) while the cell is borrowed, processing fails with `AlreadyBorrowed`. A builder that only captures the handle is rebuilt even while the cell is borrowed. |
| Dispatch.Dispatch | src/lib.rs:46-133 | An iterative pre-order dispatcher with an explicit worklist gives exactly the result of the recursive `Process`. |
| Counters.Counter2Rebuilt | src/lib.rs:196-210 | `counter2`'s builder on count `k` gives the text "value: k", an increment button and a decrement button, in that order. |
| Counters.Counter2Steps | src/lib.rs:196-210 | Processing `counter2` means the increment button sees the event first, and then the decrement button. |
| Counters.Counter2Increment | src/lib.rs:202-204 | Pressing "increment" on `counter2` adds exactly one to the count and changes nothing else, so the decrement callback does not run. At the `usize` maximum it fails with `Overflow`. |
| Counters.Counter2Decrement | src/lib.rs:205-207 | Pressing "decrement" subtracts exactly one. At zero it fails with `Underflow`. |
| Counters.Counter2Unmatched | src/lib.rs:196-210 | Any other label leaves `counter2`'s store unchanged. |
| Counters.Counter2PressedNTimes | src/lib.rs:212-221 | Pressing "increment" `n` times on `counter2` starting from `k` leaves exactly `k + n` and changes nothing else. |
| Counters.TestState3 | src/lib.rs:212-221 | `counter2(42)` followed by pressing "increment" leaves the new cell at 43. |
| Counters.CounterOwnLabel | src/lib.rs:172-178 | `counter` answers to its count's digits. One press adds one. Pressing the same label again does nothing, because the button has been relabelled. "increment" does nothing. |
| Counters.Counter3 | src/lib.rs:223-233 | `counter3` is a stack built with `Stack::new` and `push`: an "increment" button, then a "decrement" button, both acting on the given handle. |
| Counters.Counter2WhileBorrowed | src/lib.rs:196-201 | While `counter2`'s cell is borrowed, processing fails with `AlreadyBorrowed`, because the builder reads the count to print it. |
| Counters.BindingWhileBorrowed | src/lib.rs:223-240 | The `test_binding` view only captures its handle, so it is rebuilt even while the cell is borrowed. An unrelated label leaves the store unchanged, and either button's callback fails with `AlreadyBorrowed`. |
| Counters.BindingBuilderIsCounter3 | src/lib.rs:223-240 | The builder of `test_binding` gives exactly `counter3` on its handle. |
| Counters.Counter3Events | src/lib.rs:223-233 | On `counter3`, "increment" adds exactly one, and at the maximum it fails with `Overflow`. "decrement" subtracts exactly one, and at zero it fails with `Underflow`. |
| Shapes.Geom | src/shapes.rs:59-66 | Geometry returns the node's cached rectangle. If the node has no entry, it first inserts the default box. It adds no other entry and changes no other entry. |
| Shapes.Layout | src/shapes.rs:85-94 | Layout returns the incoming size unchanged. It caches a box at the origin with that size and zero offset. Entries for other ids are unchanged. |
| Shapes.Process | src/shapes.rs:74-76 | A shape leaves the context unchanged for every event. |
| Shapes.Draw | src/shapes.rs:78-83 | Drawing changes the cache only by the default-box insertion that geometry does: an id without an entry gets the default box, and every existing entry is kept. |
| Shapes.HitTest | src/shapes.rs:96-100 | Hit-testing answers `Some(id)` for the node's own id exactly when the point is in the shape's region over its cached rectangle. Otherwise it answers nothing. It never answers another id. |
| Shapes.LayoutThenGeom | src/shapes.rs:85-94 | After `layout(id, sz)`, geometry reads a rectangle at the origin with size `sz` and leaves the cache unchanged. |
| Shapes.GeomIdempotent | src/shapes.rs:59-66 | A second geometry read returns the same rectangle and changes nothing. |
| Shapes.LayoutIdempotent | src/shapes.rs:85-94 | Laying a node out again with the same size gives the same size and the same cache. |
| Shapes.HitTestAfterLayout | src/shapes.rs:96-100 | After layout, hit-testing checks the point against the laid-out rectangle and leaves the cache unchanged. |

## Left out

- Closures are limited to fixed sets. Callbacks are one of increment, decrement, set or no-op on a captured handle. Builders are a `Builder` value, which can be a fixed view, a text or button showing the count, a button bound to the handle, or a stack of these. Other closure bodies, such as the `println!` callbacks of the tests, are not modelled.
- `draw` and `print` output (src/lib.rs:47-48, 76-77, 94-95, 121-126; src/shapes.rs:18-19, 70-71): these only write diagnostic text.
- The GPU renderer calls and colours (src/shapes.rs:26-31, 78-83), and `Rectangle`'s corner radius, which only drawing uses. `Shapes.Draw` models only the change `draw` makes to the cache.
- Floating-point geometry: the circle's centre and its radius `min(w, h) / 2`, `distance_to`, and `rect.contains`. Coordinates are integer pairs, and the region test is a predicate parameter (`Region`) of `HitTest`.
- Integer width and overflow: the model follows a debug build (overflow checks on) on a 64-bit target, so `usize::MAX` is 2^64-1 and `+= 1` at the maximum or `-= 1` at zero panic (src/lib.rs:203, 206, 227, 230). The wrap-around of a release build and other `usize` widths, such as 2^32-1 on a 32-bit target, are not modelled.
- A panic is treated as ending the program. An `Err` carries no store, so writes made earlier in the same traversal are dropped, for example by an earlier button of the same stack that already fired. In the source those writes stay in the shared cell, where code that catches the panic could see them.
- `Rc` reference counting and deallocation. A cell is never freed, because lifetime does not change behaviour.
- `State<S>` is generic in `Cells`. The callbacks and the views use `usize` cells only, because every state view in the source is over `usize`.
- The tests `test_button`, `test_state`, `test_state2`, `test_stack` and the `ok_button` helper (src/lib.rs:160-170, 180-194, 242-244): they construct views, and some draw them, without asserting anything.
- `ViewID`, `Context` and `LayoutBox` are used but not defined in src/lib.rs, and the definition file is not part of this model. `ViewID` is a structural path, and geometry is integers.
- Layout, drawing and hit-testing of composite views are not modelled: the code shown implements them only for the two leaf shapes.
- Views.Process: its contract does not say which cells end up holding which values. `Dispatch.Dispatch` and the lemmas of `Views` and `Counters` pin that down.

=== FILE: callbacks.dfy ===
/** Button callbacks over `usize` cells.

    The source's callbacks are arbitrary closures; the model restricts them
    to a closed set of store actions: `*count.get() += 1` and
    `*count.get() -= 1`, which the counters' buttons use; `count.set(v)`,
    the whole-value store action of a handle; and a callback that changes
    nothing, as the `println!` callbacks of the button and stack tests do.
    Each acquires the cell's scoped access first (failing if it is already
    borrowed) and then does the `usize` arithmetic, which panics on
    overflow and underflow.
 */
module Callbacks {
  import opened Cells

  const UsizeMax: nat := 0xFFFF_FFFF_FFFF_FFFF

  type Usize = x: nat | x <= UsizeMax

  /** The store the counters of the toolkit work on. */
  type CountStore = Store<Usize>

  datatype Op = Increment | Decrement | SetTo(value: Usize) | NoOp

  /** A callback: an action on the cell of the handle it captured. */
  datatype Callback = Callback(op: Op, target: State)

  /** The cells a callback may change. */
  function Targets(cb: Callback): set<CellRef> {
    if cb.op.NoOp? then {} else {cb.target.cell}
  }

  /** Runs the callback: `(*self.func)()`. */
  function Run(cb: Callback, st: CountStore): (r: Result<CountStore>)
    requires Targets(cb) <= st.cells.Keys
    ensures r.Ok? ==> Frame(st, r.value, Targets(cb))
    ensures cb.op.NoOp? ==> r == Ok(st)
    ensures !cb.op.NoOp? && Borrowed(st, cb.target) ==> r == Err(AlreadyBorrowed(cb.target.cell))
    ensures cb.op.Increment? && !Borrowed(st, cb.target) ==>
              if Deref(st, cb.target) == UsizeMax then r == Err(Overflow(cb.target.cell))
              else r.Ok? && Deref(r.value, cb.target) == Deref(st, cb.target) + 1
    ensures cb.op.Decrement? && !Borrowed(st, cb.target) ==>
              if Deref(st, cb.target) == 0 then r == Err(Underflow(cb.target.cell))
              else r.Ok? && Deref(r.value, cb.target) == Deref(st, cb.target) - 1
    ensures cb.op.SetTo? && !Borrowed(st, cb.target) ==>
              r.Ok? && Deref(r.value, cb.target) == cb.op.value
  {
    var h := cb.target;
    match cb.op
    case NoOp => Ok(st)
    case SetTo(v) => Set(st, h, v)
    case Increment =>
      (match Get(st, h)
       case Err(e) => Err(e)
       case Ok(g) =>
         var v := Deref(g, h);
         if v == UsizeMax then Err(Overflow(h.cell)) else Ok(Release(Assign(g, h, v + 1), h)))
    case Decrement =>
      (match Get(st, h)
       case Err(e) => Err(e)
       case Ok(g) =>
         var v := Deref(g, h);
         if v == 0 then Err(Underflow(h.cell)) else Ok(Release(Assign(g, h, v - 1), h)))
  }

  /** Increment and decrement undo each other whenever both succeed. */
  lemma {:induction false} IncrementDecrementInverse(h: State, st: CountStore)
    requires Allocated(st, h) && !Borrowed(st, h)
    ensures Deref(st, h) < UsizeMax ==>
              var up := Run(Callback(Increment, h), st);
              up.Ok? && Run(Callback(Decrement, h), up.value) == Ok(st)
    ensures Deref(st, h) > 0 ==>
              var down := Run(Callback(Decrement, h), st);
              down.Ok? && Run(Callback(Increment, h), down.value) == Ok(st)
  {
    if Deref(st, h) < UsizeMax {
      UpThenDown(h, st);
    }
    if Deref(st, h) > 0 {
      DownThenUp(h, st);
    }
  }

  lemma {:induction false} UpThenDown(h: State, st: CountStore)
    requires Allocated(st, h) && !Borrowed(st, h) && Deref(st, h) < UsizeMax
    ensures Run(Callback(Increment, h), st).Ok?
    ensures Run(Callback(Decrement, h), Run(Callback(Increment, h), st).value) == Ok(st)
  {
    var up := Run(Callback(Increment, h), st).value;
    assert up.cells == st.cells[h.cell := Cell(Deref(st, h) + 1, false)];
    assert Run(Callback(Decrement, h), up).value.cells == st.cells;
  }

  lemma {:induction false} DownThenUp(h: State, st: CountStore)
    requires Allocated(st, h) && !Borrowed(st, h) && Deref(st, h) > 0
    ensures Run(Callback(Decrement, h), st).Ok?
    ensures Run(Callback(Increment, h), Run(Callback(Decrement, h), st).value) == Ok(st)
  {
    var down := Run(Callback(Decrement, h), st).value;
    assert down.cells == st.cells[h.cell := Cell(Deref(st, h) - 1, false)];
    assert Run(Callback(Increment, h), down).value.cells == st.cells;
  }

  /** The exact store an increment that succeeds leaves: only the target's
      value changes, and its access is released again. */
  lemma {:induction false} IncrementStores(h: State, st: CountStore)
    requires Allocated(st, h) && !Borrowed(st, h) && Deref(st, h) < UsizeMax
    ensures Run(Callback(Increment, h), st) ==
              Ok(st.(cells := st.cells[h.cell := Cell(Deref(st, h) + 1, false)]))
  {
    var up := Run(Callback(Increment, h), st).value;
    assert up.cells == st.cells[h.cell := Cell(Deref(st, h) + 1, false)];
  }

  /** The same for a decrement that succeeds. */
  lemma {:induction false} DecrementStores(h: State, st: CountStore)
    requires Allocated(st, h) && !Borrowed(st, h) && Deref(st, h) > 0
    ensures Run(Callback(Decrement, h), st) ==
              Ok(st.(cells := st.cells[h.cell := Cell(Deref(st, h) - 1, false)]))
  {
    var down := Run(Callback(Decrement, h), st).value;
    assert down.cells == st.cells[h.cell := Cell(Deref(st, h) - 1, false)];
  }
}

=== FILE: cells.dfy ===
/** Shared state cells: the `State<S>` handle and the `Binding` capability.

    A handle names one cell of a `Store`; cloning a handle copies the name,
    so every clone observes the same cell (the `Rc` of the source). Each cell
    carries the dynamic borrow flag of the `RefCell` behind the handle: it is
    set while a scoped mutable access obtained by `Binding::get` is live, and
    a second access to the same cell while it is set fails fast.
 */
module Cells {

  /** The storage a handle points to (one `Rc<RefCell<S>>` allocation). */
  type CellRef = nat

  datatype Cell<+S> = Cell(value: S, borrowed: bool)

  /** Every cell allocated so far; `next` is the first reference not yet used. */
  datatype Store<+S> = Store(cells: map<CellRef, Cell<S>>, next: CellRef)

  /** A `State<S>` handle. */
  datatype State = State(cell: CellRef)

  /** The ways a traversal aborts (each one a panic in the source). */
  datatype Error =
    | AlreadyBorrowed(cell: CellRef)  // `borrow_mut` while another guard is live
    | Underflow(cell: CellRef)        // `usize` subtraction below zero
    | Overflow(cell: CellRef)         // `usize` addition past the maximum

  datatype Result<T> = Ok(value: T) | Err(error: Error)

  /** Allocation only ever hands out references below `next`. */
  ghost predicate Valid<S>(st: Store<S>) {
    forall c :: c in st.cells ==> c < st.next
  }

  predicate Allocated<S>(st: Store<S>, h: State) {
    h.cell in st.cells
  }

  predicate Borrowed<S>(st: Store<S>, h: State)
    requires Allocated(st, h)
  {
    st.cells[h.cell].borrowed
  }

  /** The value currently held by the cell behind `h`. */
  function Deref<S>(st: Store<S>, h: State): S
    requires Allocated(st, h)
  {
    st.cells[h.cell].value
  }

  /** No scoped access is live on any cell. */
  ghost predicate Quiet<S>(st: Store<S>) {
    forall c :: c in st.cells ==> !st.cells[c].borrowed
  }

  /** `st'` differs from `st` at most in the values held by the cells of
      `touched`: nothing is allocated and no borrow flag changes. */
  ghost predicate Frame<S>(st: Store<S>, st': Store<S>, touched: set<CellRef>) {
    && st'.next == st.next
    && st'.cells.Keys == st.cells.Keys
    && forall c :: c in st.cells ==>
         && st'.cells[c].borrowed == st.cells[c].borrowed
         && (c !in touched ==> st'.cells[c] == st.cells[c])
  }

  /** `State::new`: a fresh cell holding `value`, not borrowed. */
  function New<S>(st: Store<S>, value: S): (r: (State, Store<S>))
    requires Valid(st)
    ensures !Allocated(st, r.0) && Allocated(r.1, r.0) && Valid(r.1)
    ensures Deref(r.1, r.0) == value && !Borrowed(r.1, r.0)
    ensures forall c :: c in st.cells ==> c in r.1.cells && r.1.cells[c] == st.cells[c]
    ensures r.1.cells.Keys == st.cells.Keys + {r.0.cell}
  {
    (State(st.next), Store(st.cells[st.next := Cell(value, false)], st.next + 1))
  }

  /** The derived `Clone` of `State`: a second handle on the same storage. */
  function Clone(h: State): (r: State)
    ensures r.cell == h.cell
  {
    h
  }

  /** `Binding::get` (`RefCell::borrow_mut`): acquires the scoped mutable
      access, which stays live until `Release`. */
  function Get<S>(st: Store<S>, h: State): (r: Result<Store<S>>)
    requires Allocated(st, h)
    ensures r.Err? <==> Borrowed(st, h)
    ensures r.Err? ==> r.error == AlreadyBorrowed(h.cell)
    ensures r.Ok? ==> r.value.next == st.next
    ensures r.Ok? ==> r.value.cells == st.cells[h.cell := Cell(Deref(st, h), true)]
  {
    if st.cells[h.cell].borrowed then Err(AlreadyBorrowed(h.cell))
    else Ok(st.(cells := st.cells[h.cell := st.cells[h.cell].(borrowed := true)]))
  }

  /** `*guard = value` through a live access. */
  function Assign<S>(st: Store<S>, h: State, value: S): (r: Store<S>)
    requires Allocated(st, h) && Borrowed(st, h)
    ensures Frame(st, r, {h.cell}) && Deref(r, h) == value
  {
    st.(cells := st.cells[h.cell := Cell(value, true)])
  }

  /** The guard goes out of scope. */
  function Release<S>(st: Store<S>, h: State): (r: Store<S>)
    requires Allocated(st, h) && Borrowed(st, h)
    ensures r.next == st.next
    ensures r.cells == st.cells[h.cell := Cell(Deref(st, h), false)]
  {
    st.(cells := st.cells[h.cell := st.cells[h.cell].(borrowed := false)])
  }

  /** `*h.get()` used as a value: acquire, read, release at once. */
  function Read<S>(st: Store<S>, h: State): (r: Result<S>)
    requires Allocated(st, h)
    ensures r.Ok? <==> !Borrowed(st, h)
    ensures r.Ok? ==> r.value == Deref(st, h)
    ensures r.Err? ==> r.error == AlreadyBorrowed(h.cell)
  {
    match Get(st, h)
    case Err(e) => Err(e)
    case Ok(guarded) => Ok(Deref(guarded, h))
  }

  /** `State::set`: replaces the whole value through a scoped access. */
  function Set<S>(st: Store<S>, h: State, value: S): (r: Result<Store<S>>)
    requires Allocated(st, h)
    ensures r.Err? <==> Borrowed(st, h)
    ensures r.Err? ==> r.error == AlreadyBorrowed(h.cell)
    ensures r.Ok? ==> Frame(st, r.value, {h.cell})
    ensures r.Ok? ==> Deref(r.value, h) == value && !Borrowed(r.value, h)
  {
    match Get(st, h)
    case Err(e) => Err(e)
    case Ok(guarded) => Ok(Release(Assign(guarded, h, value), h))
  }

  /** A read releases its access: acquiring and releasing leaves the store
      as it was, and what the guard sees is what `Read` returns. */
  lemma {:induction false} ReadReleases<S>(st: Store<S>, h: State)
    requires Allocated(st, h) && !Borrowed(st, h)
    ensures Get(st, h).Ok? && Release(Get(st, h).value, h) == st
    ensures Read(st, h) == Ok(Deref(Get(st, h).value, h))
  {
    var g := Get(st, h).value;
    assert Release(g, h).cells == st.cells;
  }

  /** The sharing property of `State`: a value set through one handle is
      read back through any clone of it. */
  lemma CloneAliases<S>(st: Store<S>, h: State, value: S)
    requires Allocated(st, h) && !Borrowed(st, h)
    ensures Set(st, h, value).Ok?
    ensures Read(Set(st, h, value).value, Clone(h)) == Ok(value)
  {
  }

  /** The `test_state_clone` scenario: `State::new(0)`, clone, `set(42)`,
      then the clone reads 42. */
  lemma TestStateClone(st: Store<int>)
    requires Valid(st)
    ensures var (s, st1) := New(st, 0);
            var s2 := Clone(s);
            Set(st1, s, 42).Ok? && Read(Set(st1, s, 42).value, s2) == Ok(42)
  {
  }

  /** Overlapping accesses fail fast: while one guard is live, a second
      access through any clone of the handle is refused. */
  lemma OverlappingAccessFails<S>(st: Store<S>, h: State, value: S)
    requires Allocated(st, h) && Get(st, h).Ok?
    ensures Get(Get(st, h).value, Clone(h)) == Err(AlreadyBorrowed(h.cell))
    ensures Read(Get(st, h).value, Clone(h)).Err?
    ensures Set(Get(st, h).value, Clone(h), value).Err?
  {
  }

  /** `set` replaces the whole value: a second `set` erases the first. */
  lemma {:induction false} SetLastWins<S>(st: Store<S>, h: State, v: S, w: S)
    requires Allocated(st, h) && !Borrowed(st, h)
    ensures Set(st, h, v).Ok?
    ensures Set(Set(st, h, v).value, h, w) == Set(st, h, w)
  {
    var a := Set(Set(st, h, v).value, h, w).value;
    var b := Set(st, h, w).value;
    assert a.cells == b.cells;
  }
}

=== FILE: counters.dfy ===
/** The counter views of the library's tests, and what processing events on
    them does to the store. */
module Counters {
  import opened Cells
  import opened Callbacks
  import opened Format
  import opened Views

  /** `counter(start)`: a button labelled with the count that increments it. */
  const CounterBuilder: Builder := ValueButton(Increment)

  /** `counter2(start)`: the count as text, then an increment and a decrement
      button, all over the same cell. */
  const Counter2Builder: Builder :=
    Build([ValueText("value: "), BoundButton("increment", Increment), BoundButton("decrement", Decrement)])

  /** `counter3(count)`: the two buttons of `counter2`, built with
      `Stack::new` and `push` over a binding handed in by the caller. */
  function Counter3(count: State): (r: View)
    ensures r == Stack([Button("increment", Callback(Increment, count)),
                        Button("decrement", Callback(Decrement, count))])
  {
    Push(Push(NewStack(), Button("increment", Callback(Increment, count))),
         Button("decrement", Callback(Decrement, count)))
  }

  /** The builder of `test_binding`: `|count| counter3(count)`. */
  const BindingBuilder: Builder :=
    Build([BoundButton("increment", Increment), BoundButton("decrement", Decrement)])

  const PressIncrement: Event := PressButton("increment")
  const PressDecrement: Event := PressButton("decrement")

  /** `st` with the cell of `h` holding `value`, not borrowed. */
  function WithValue(st: CountStore, h: State, value: Usize): CountStore {
    st.(cells := st.cells[h.cell := Cell(value, false)])
  }

  lemma WithValueFacts(st: CountStore, h: State, a: Usize)
    requires Allocated(st, h)
    ensures WithValue(st, h, a).cells.Keys == st.cells.Keys
    ensures Allocated(WithValue(st, h, a), h) && !Borrowed(WithValue(st, h, a), h)
    ensures Deref(WithValue(st, h, a), h) == a
  {
  }

  /** A later value for the same cell replaces an earlier one. */
  lemma WithValueTwice(st: CountStore, h: State, a: Usize, b: Usize)
    ensures WithValue(WithValue(st, h, a), h, b) == WithValue(st, h, b)
  {
    assert WithValue(WithValue(st, h, a), h, b).cells == WithValue(st, h, b).cells;
  }

  /** What `counter2`'s builder yields when the cell holds `k`. */
  lemma Counter2Rebuilt(h: State, k: Usize)
    ensures Instantiate(Counter2Builder, h, k) ==
              Stack([Text("value: " + Decimal(k)),
                     Button("increment", Callback(Increment, h)),
                     Button("decrement", Callback(Decrement, h))])
  {
    var bs := Counter2Builder.parts;
    assert bs[1..][1..][1..] == [];
  }

  lemma Counter2Refs(h: State)
    ensures Refs(StateView(h, Counter2Builder)) == {h.cell}
    ensures Reads(Counter2Builder)
  {
    var bs := Counter2Builder.parts;
    assert bs[1..][1..][1..] == [];
  }

  function IncrementButton(h: State): View {
    Button("increment", Callback(Increment, h))
  }

  function DecrementButton(h: State): View {
    Button("decrement", Callback(Decrement, h))
  }

  lemma WordsDiffer()
    ensures "increment" != "decrement"
  {
    assert "decrement"[0] != "increment"[0];
  }

  /** A stack of a text and two views: the text ignores the event, then the
      first view sees it, then the second. */
  lemma {:induction false} TextThenTwo(text: string, x: View, y: View, e: Event, st: CountStore)
    requires Refs(x) + Refs(y) <= st.cells.Keys
    ensures Refs(Stack([Text(text), x, y])) == Refs(x) + Refs(y)
    ensures Process(Stack([Text(text), x, y]), e, st) ==
              match Process(x, e, st)
              case Err(err) => Err(err)
              case Ok(mid) => Process(y, e, mid)
  {
    var t := Text(text);
    assert [t, x, y] == [t] + [x, y];
    assert [x, y] == [x] + [y];
    assert [y] == [y] + [];
    assert [y][1..] == [] && [x, y][1..] == [y];
    assert RefsAll([y]) == Refs(y);
    assert RefsAll([x, y]) == Refs(x) + Refs(y);
    ProcessAllCons(t, [x, y], e, st);
    ProcessAllCons(x, [y], e, st);
    match Process(x, e, st)
    case Err(_) =>
    case Ok(mid) => ProcessAllCons(y, [], e, mid);
  }

  /** The rebuilt `counter2` stack: the text ignores the event, then the
      increment button sees it, then the decrement button. */
  lemma {:induction false} Counter2Steps(h: State, e: Event, st: CountStore)
    requires Allocated(st, h) && !Borrowed(st, h)
    ensures Refs(StateView(h, Counter2Builder)) <= st.cells.Keys
    ensures Process(StateView(h, Counter2Builder), e, st) ==
              match Process(IncrementButton(h), e, st)
              case Err(err) => Err(err)
              case Ok(mid) => Process(DecrementButton(h), e, mid)
  {
    Counter2Refs(h);
    StateViewRebuilds(h, Counter2Builder, e, st);
    Counter2Rebuilt(h, Deref(st, h));
    TextThenTwo("value: " + Decimal(Deref(st, h)), IncrementButton(h), DecrementButton(h), e, st);
  }

  /** Pressing "increment" on `counter2` adds exactly one to the count (the
      decrement callback does not run), and panics at the maximum. */
  lemma {:induction false} Counter2Increment(h: State, st: CountStore)
    requires Allocated(st, h) && !Borrowed(st, h)
    ensures Deref(st, h) < UsizeMax ==>
              Process(StateView(h, Counter2Builder), PressIncrement, st) ==
              Ok(WithValue(st, h, Deref(st, h) + 1))
    ensures Deref(st, h) == UsizeMax ==>
              Process(StateView(h, Counter2Builder), PressIncrement, st) == Err(Overflow(h.cell))
  {
    Counter2Steps(h, PressIncrement, st);
    ButtonFiresOnItsLabel("increment", Callback(Increment, h), PressIncrement, st);
    if Deref(st, h) < UsizeMax {
      WordsDiffer();
      IncrementStores(h, st);
      var up := WithValue(st, h, Deref(st, h) + 1);
      ButtonFiresOnItsLabel("decrement", Callback(Decrement, h), PressIncrement, up);
    }
  }

  /** Pressing "decrement" subtracts exactly one, and panics at zero. */
  lemma {:induction false} Counter2Decrement(h: State, st: CountStore)
    requires Allocated(st, h) && !Borrowed(st, h)
    ensures Deref(st, h) > 0 ==>
              Process(StateView(h, Counter2Builder), PressDecrement, st) ==
              Ok(WithValue(st, h, Deref(st, h) - 1))
    ensures Deref(st, h) == 0 ==>
              Process(StateView(h, Counter2Builder), PressDecrement, st) == Err(Underflow(h.cell))
  {
    Counter2Steps(h, PressDecrement, st);
    WordsDiffer();
    ButtonFiresOnItsLabel("increment", Callback(Increment, h), PressDecrement, st);
    ButtonFiresOnItsLabel("decrement", Callback(Decrement, h), PressDecrement, st);
    if Deref(st, h) > 0 {
      DecrementStores(h, st);
    }
  }

  /** Any other label leaves `counter2`'s store unchanged. */
  lemma {:induction false} Counter2Unmatched(h: State, e: Event, st: CountStore)
    requires Allocated(st, h) && !Borrowed(st, h)
    requires e.name != "increment" && e.name != "decrement"
    ensures Process(StateView(h, Counter2Builder), e, st) == Ok(st)
  {
    Counter2Steps(h, e, st);
    ButtonFiresOnItsLabel("increment", Callback(Increment, h), e, st);
    ButtonFiresOnItsLabel("decrement", Callback(Decrement, h), e, st);
  }

  /** `n` applications of a step function; a failure stops the sequence. */
  ghost function Iterate(f: CountStore -> Result<CountStore>, st: CountStore, n: nat): Result<CountStore>
    decreases n
  {
    if n == 0 then Ok(st)
    else
      match Iterate(f, st, n - 1)
      case Err(err) => Err(err)
      case Ok(s) => f(s)
  }

  /** A step that adds one to the cell of `h` whenever it can. */
  ghost predicate AddsOne(f: CountStore -> Result<CountStore>, h: State) {
    forall s: CountStore {:trigger f(s)} ::
      Allocated(s, h) && !Borrowed(s, h) && Deref(s, h) < UsizeMax ==>
        f(s) == Ok(WithValue(s, h, Deref(s, h) + 1))
  }

  /** Iterating such a step `n` times from a count of `k` leaves `k + n`. */
  lemma {:induction false} IterateAddsOne(f: CountStore -> Result<CountStore>, h: State, st: CountStore, n: nat)
    requires AddsOne(f, h)
    requires Allocated(st, h) && !Borrowed(st, h) && Deref(st, h) + n <= UsizeMax
    ensures Iterate(f, st, n) == Ok(WithValue(st, h, Deref(st, h) + n))
    decreases n
  {
    var k := Deref(st, h);
    if n == 0 {
      assert WithValue(st, h, k) == st by {
        assert WithValue(st, h, k).cells == st.cells;
      }
    } else {
      IterateAddsOne(f, h, st, n - 1);
      var before := WithValue(st, h, k + (n - 1));
      WithValueFacts(st, h, k + (n - 1));
      WithValueTwice(st, h, k + (n - 1), k + n);
    }
  }

  /** Delivering an event `n` times is iterating any step that agrees with
      `Process` on the stores `v` can be processed in. */
  lemma {:induction false} ProcessNIterates(v: View, e: Event, f: CountStore -> Result<CountStore>, st: CountStore, n: nat)
    requires forall s: CountStore {:trigger f(s)} :: Refs(v) <= s.cells.Keys ==> f(s) == Process(v, e, s)
    requires Refs(v) <= st.cells.Keys
    ensures ProcessN(v, e, st, n) == Iterate(f, st, n)
    decreases n
  {
    if n > 0 {
      ProcessNIterates(v, e, f, st, n - 1);
    }
  }

  /** `n` presses of "increment" from a count of `k` leave `k + n`; by
      `Counter2Rebuilt`, the view then reads "value: " followed by `k + n`. */
  lemma Counter2PressedNTimes(h: State, st: CountStore, n: nat)
    requires Allocated(st, h) && !Borrowed(st, h) && Deref(st, h) + n <= UsizeMax
    ensures Refs(StateView(h, Counter2Builder)) <= st.cells.Keys
    ensures ProcessN(StateView(h, Counter2Builder), PressIncrement, st, n) ==
              Ok(WithValue(st, h, Deref(st, h) + n))
  {
    var v := StateView(h, Counter2Builder);
    Counter2Refs(h);
    var f := (s: CountStore) => if Refs(v) <= s.cells.Keys then Process(v, PressIncrement, s) else Ok(s);
    forall s: CountStore | Allocated(s, h) && !Borrowed(s, h) && Deref(s, h) < UsizeMax
      ensures f(s) == Ok(WithValue(s, h, Deref(s, h) + 1))
    {
      Counter2Increment(h, s);
    }
    IterateAddsOne(f, h, st, n);
    ProcessNIterates(v, PressIncrement, f, st, n);
  }

  /** The `test_state3` scenario: `counter2(42)`, press "increment"; the new
      cell then holds 43 and every other cell is as before. */
  lemma TestState3(st: CountStore)
    requires Valid(st)
    ensures var (v, st1) := StateScope(st, 42, Counter2Builder);
            Refs(v) <= st1.cells.Keys &&
            Process(v, PressIncrement, st1) == Ok(WithValue(st1, v.state, 43))
  {
    var (v, st1) := StateScope(st, 42, Counter2Builder);
    Counter2Refs(v.state);
    Counter2Increment(v.state, st1);
  }

  /** `counter(start)` responds to its own label, the count's decimal form:
      one press adds one, and a second press of the same label finds the
      button relabelled and does nothing. Pressing "increment" does nothing. */
  lemma {:induction false} CounterOwnLabel(h: State, st: CountStore)
    requires Allocated(st, h) && !Borrowed(st, h) && Deref(st, h) < UsizeMax
    ensures var k := Deref(st, h);
            var once := Process(StateView(h, CounterBuilder), PressButton(Decimal(k)), st);
            && once == Ok(WithValue(st, h, k + 1))
            && Process(StateView(h, CounterBuilder), PressButton(Decimal(k)), once.value) == once
    ensures Process(StateView(h, CounterBuilder), PressIncrement, st) == Ok(st)
  {
    var k := Deref(st, h);
    IncrementStores(h, st);
    DecimalInjective(k, k + 1);
    DecimalIsNotAWord(k, "increment");
  }

  /** The `test_binding` builder yields exactly `counter3` on its handle. */
  lemma BindingBuilderIsCounter3(h: State, k: Usize)
    ensures Instantiate(BindingBuilder, h, k) == Counter3(h)
  {
    var bs := BindingBuilder.parts;
    assert bs[1..][1..] == [];
  }

  /** On `counter3`, "increment" adds one, "decrement" subtracts one, and
      "decrement" at zero panics. */
  lemma {:induction false} Counter3Events(h: State, st: CountStore)
    requires Allocated(st, h) && !Borrowed(st, h)
    ensures Refs(Counter3(h)) == {h.cell}
    ensures Deref(st, h) < UsizeMax ==>
              Process(Counter3(h), PressIncrement, st) == Ok(WithValue(st, h, Deref(st, h) + 1))
    ensures Deref(st, h) == UsizeMax ==>
              Process(Counter3(h), PressIncrement, st) == Err(Overflow(h.cell))
    ensures Deref(st, h) > 0 ==>
              Process(Counter3(h), PressDecrement, st) == Ok(WithValue(st, h, Deref(st, h) - 1))
    ensures Deref(st, h) == 0 ==>
              Process(Counter3(h), PressDecrement, st) == Err(Underflow(h.cell))
  {
    var inc := IncrementButton(h);
    var dec := DecrementButton(h);
    assert Counter3(h) == Stack([inc] + [dec]) by {
      assert [] + [inc] + [dec] == [inc] + [dec];
    }
    assert [dec] == [dec] + [];
    WordsDiffer();
    ProcessAllCons(inc, [dec], PressIncrement, st);
    ProcessAllCons(inc, [dec], PressDecrement, st);
    ButtonFiresOnItsLabel("increment", Callback(Increment, h), PressDecrement, st);
    ButtonFiresOnItsLabel("increment", Callback(Increment, h), PressIncrement, st);
    if Deref(st, h) < UsizeMax {
      IncrementStores(h, st);
      var up := WithValue(st, h, Deref(st, h) + 1);
      ProcessAllCons(dec, [], PressIncrement, up);
      ButtonFiresOnItsLabel("decrement", Callback(Decrement, h), PressIncrement, up);
    }
    if Deref(st, h) > 0 {
      DecrementStores(h, st);
      ProcessAllCons(dec, [], PressDecrement, st);
      ButtonFiresOnItsLabel("decrement", Callback(Decrement, h), PressDecrement, st);
    }
  }

  /** While the cell of `counter2` is borrowed, processing fails fast: its
      builder reads the count to print it. */
  lemma Counter2WhileBorrowed(h: State, e: Event, st: CountStore)
    requires Allocated(st, h) && Borrowed(st, h)
    ensures Refs(StateView(h, Counter2Builder)) <= st.cells.Keys
    ensures Process(StateView(h, Counter2Builder), e, st) == Err(AlreadyBorrowed(h.cell))
  {
    Counter2Refs(h);
    StateViewRebuilds(h, Counter2Builder, e, st);
  }

  /** The `test_binding` view only captures its handle, so it is rebuilt even
      while the cell is borrowed: an unrelated label changes nothing, and
      either button's callback then fails on the live access. */
  lemma {:induction false} BindingWhileBorrowed(h: State, e: Event, st: CountStore)
    requires Allocated(st, h) && Borrowed(st, h)
    ensures Refs(StateView(h, BindingBuilder)) <= st.cells.Keys
    ensures e.name != "increment" && e.name != "decrement" ==>
              Process(StateView(h, BindingBuilder), e, st) == Ok(st)
    ensures e.name == "increment" || e.name == "decrement" ==>
              Process(StateView(h, BindingBuilder), e, st) == Err(AlreadyBorrowed(h.cell))
  {
    var bs := BindingBuilder.parts;
    assert bs[1..][1..] == [];
    assert !Reads(BindingBuilder);
    StateViewRebuilds(h, BindingBuilder, e, st);
    BindingBuilderIsCounter3(h, Deref(st, h));
    var inc := IncrementButton(h);
    var dec := DecrementButton(h);
    assert Counter3(h) == Stack([inc] + [dec]) by {
      assert [] + [inc] + [dec] == [inc] + [dec];
    }
    assert [dec] == [dec] + [];
    ProcessAllCons(inc, [dec], e, st);
    ButtonFiresOnItsLabel("increment", Callback(Increment, h), e, st);
    ButtonFiresOnItsLabel("decrement", Callback(Decrement, h), e, st);
    ProcessAllCons(dec, [], e, st);
  }
}

=== FILE: dispatch.dfy ===
/** An iterative event dispatcher: the traversal of `Views.Process` driven
    by an explicit worklist instead of recursion. It visits the nodes in
    the same pre-order, declaration-order sequence, so it is a reference
    the recursive definition is checked against.
 */
module Dispatch {
  import opened Cells
  import opened Callbacks
  import opened Views

  method Dispatch(root: View, e: Event, st: CountStore) returns (r: Result<CountStore>)
    requires Refs(root) <= st.cells.Keys
    ensures r == Process(root, e, st)
  {
    var work := [root];
    var cur := st;
    assert work[1..] == [];
    while work != []
      invariant RefsAll(work) <= cur.cells.Keys
      invariant ProcessAll(work, e, cur) == Process(root, e, st)
      decreases SizeAll(work)
    {
      var v := work[0];
      var rest := work[1..];
      assert SizeAll(work) == Size(v) + SizeAll(rest);
      assert RefsAll(work) == Refs(v) + RefsAll(rest);
      match v {
        case EmptyView =>
          work := rest;
        case Text(_) =>
          work := rest;
        case Button(text, cb) =>
          if e.name == text {
            var o := Run(cb, cur);
            if o.Err? {
              return Err(o.error);
            }
            cur := o.value;
          }
          work := rest;
        case Stack(cs) =>
          RefsAllAppend(cs, rest);
          ProcessAllAppend(cs, rest, e, cur);
          SizeAllAppend(cs, rest);
          work := cs + rest;
        case StateView(h, b) =>
          if Reads(b) && Borrowed(cur, h) {
            return Err(AlreadyBorrowed(h.cell));
          }
          var child := Instantiate(b, Clone(h), Deref(cur, h));
          var next := [child] + rest;
          assert next[0] == child && next[1..] == rest;
          work := next;
      }
    }
    r := Ok(cur);
  }
}

=== FILE: format.dfy ===
/** The `{:?}` formatting of a `usize`: its decimal digits, most significant
    first, with no sign and no leading zero. */
module Format {

  predicate IsDigit(c: char) {
    '0' <= c <= '9'
  }

  predicate IsDigits(s: string) {
    forall i :: 0 <= i < |s| ==> IsDigit(s[i])
  }

  function Digit(d: nat): (c: char)
    requires d < 10
    ensures IsDigit(c)
  {
    (d + '0' as int) as char
  }

  function DigitValue(c: char): (d: nat)
    requires IsDigit(c)
    ensures d < 10
  {
    c as int - '0' as int
  }

  function Decimal(n: nat): (s: string)
    ensures |s| >= 1 && IsDigits(s)
    ensures |s| > 1 ==> s[0] != '0'
    decreases n
  {
    if n < 10 then [Digit(n)] else Decimal(n / 10) + [Digit(n % 10)]
  }

  /** Reads a digit string back as a number (the inverse of `Decimal`). */
  function ParseDecimal(s: string): nat
    requires IsDigits(s)
    decreases |s|
  {
    if s == [] then 0 else ParseDecimal(s[..|s| - 1]) * 10 + DigitValue(s[|s| - 1])
  }

  lemma {:induction false} ParseDecimalOfDecimal(n: nat)
    ensures ParseDecimal(Decimal(n)) == n
    decreases n
  {
    if n >= 10 {
      var s := Decimal(n / 10);
      var t := s + [Digit(n % 10)];
      assert t[..|t| - 1] == s;
      ParseDecimalOfDecimal(n / 10);
    }
  }

  /** A printed number never equals a word that starts with a non-digit. */
  lemma DecimalIsNotAWord(n: nat, w: string)
    requires |w| > 0 && !IsDigit(w[0])
    ensures Decimal(n) != w
  {
    assert IsDigit(Decimal(n)[0]);
  }

  /** Distinct numbers print differently. */
  lemma DecimalInjective(m: nat, n: nat)
    ensures Decimal(m) == Decimal(n) <==> m == n
  {
    if Decimal(m) == Decimal(n) {
      ParseDecimalOfDecimal(m);
      ParseDecimalOfDecimal(n);
    }
  }
}

=== FILE: shapes.dfy ===
/** Leaf shapes (circle, rectangle) and the per-node layout cache.

    This is the richer view contract, where every call also receives the
    node's identity and the context holding the layout cache. A shape's
    layout claims the whole incoming size and records it; drawing and
    hit-testing read the recorded box back, first inserting a default box
    when the node was never laid out.
 */
module Shapes {
  import Views

  datatype Option<T> = None | Some(value: T)

  /** Geometry as integer pairs. */
  datatype Point = Point(x: int, y: int)
  datatype Size = Size(width: int, height: int)
  datatype Offset = Offset(dx: int, dy: int)
  datatype Rect = Rect(origin: Point, size: Size)

  const ZeroPoint: Point := Point(0, 0)
  const ZeroOffset: Offset := Offset(0, 0)

  /** A node's rectangle in its own coordinates, and its offset in its
      parent's. */
  datatype LayoutBox = LayoutBox(rect: Rect, offset: Offset)

  /** `LayoutBox::default()`: everything zero. */
  const DefaultBox: LayoutBox := LayoutBox(Rect(ZeroPoint, Size(0, 0)), ZeroOffset)

  /** A node's identity: its structural path from the root. */
  datatype ViewID = ViewID(path: seq<nat>)

  /** The layout cache, one box per node identity. */
  datatype Context = Context(layout: map<ViewID, LayoutBox>)

  datatype Shape = Circle | Rectangle

  /** The region test of a shape over its recorded rectangle: inside the
      inscribed circle, or inside the rectangle. */
  type Region = (Shape, Rect, Point) -> bool

  /** `geom`: the node's recorded rectangle, recording the default box
      first when the node has none. */
  function Geom(id: ViewID, cx: Context): (r: (Rect, Context))
    ensures id in r.1.layout && r.0 == r.1.layout[id].rect
    ensures r.1.layout.Keys == cx.layout.Keys + {id}
    ensures id in cx.layout ==> r.1 == cx
    ensures id !in cx.layout ==> r.1.layout[id] == DefaultBox
    ensures forall other :: other in cx.layout ==> r.1.layout[other] == cx.layout[other]
  {
    if id in cx.layout then (cx.layout[id].rect, cx)
    else (DefaultBox.rect, Context(cx.layout[id := DefaultBox]))
  }

  /** `layout`: the shape takes the whole incoming size. */
  function Layout(s: Shape, id: ViewID, sz: Size, cx: Context): (r: (Size, Context))
    ensures r.0 == sz
    ensures id in r.1.layout && r.1.layout[id] == LayoutBox(Rect(ZeroPoint, sz), ZeroOffset)
    ensures r.1.layout.Keys == cx.layout.Keys + {id}
    ensures forall other :: other in cx.layout && other != id ==> r.1.layout[other] == cx.layout[other]
  {
    (sz, Context(cx.layout[id := LayoutBox(Rect(ZeroPoint, sz), ZeroOffset)]))
  }

  /** `process`: shapes ignore events. */
  function Process(s: Shape, e: Views.Event, id: ViewID, cx: Context): (r: Context)
    ensures r == cx
  {
    cx
  }

  /** The cache effect of `draw` (the renderer commands are not modelled). */
  function Draw(s: Shape, id: ViewID, cx: Context): (r: Context)
    ensures id in r.layout
    ensures r.layout.Keys == cx.layout.Keys + {id}
    ensures id in cx.layout ==> r == cx
    ensures id !in cx.layout ==> r.layout[id] == DefaultBox
    ensures forall other :: other in cx.layout ==> r.layout[other] == cx.layout[other]
  {
    Geom(id, cx).1
  }

  /** `hittest`: the node's own identity when the point is in its region,
      nothing otherwise; never another node's identity. */
  function HitTest(s: Shape, id: ViewID, pt: Point, cx: Context, inside: Region): (r: (Option<ViewID>, Context))
    ensures r.0 == Some(id) || r.0 == None
    ensures r.0.Some? <==> inside(s, Geom(id, cx).0, pt)
    ensures r.1 == Geom(id, cx).1
  {
    var (rect, cx') := Geom(id, cx);
    (if inside(s, rect, pt) then Some(id) else None, cx')
  }

  /** After layout, geometry reads back a box at the origin of the laid-out
      size, and leaves the cache as layout left it. */
  lemma LayoutThenGeom(s: Shape, id: ViewID, sz: Size, cx: Context)
    ensures var cx1 := Layout(s, id, sz, cx).1;
            Geom(id, cx1) == (Rect(ZeroPoint, sz), cx1)
  {
  }

  /** Reading the geometry twice: the second read finds the entry the first
      left, returns the same rectangle and changes nothing. */
  lemma GeomIdempotent(id: ViewID, cx: Context)
    ensures var (rect, cx1) := Geom(id, cx);
            Geom(id, cx1) == (rect, cx1)
  {
  }

  /** Laying a node out again with the same size gives the same size and
      the same cache. */
  lemma LayoutIdempotent(s: Shape, id: ViewID, sz: Size, cx: Context)
    ensures var (sz1, cx1) := Layout(s, id, sz, cx);
            Layout(s, id, sz, cx1) == (sz1, cx1)
  {
    var cx1 := Layout(s, id, sz, cx).1;
    assert Layout(s, id, sz, cx1).1.layout == cx1.layout;
  }

  /** Hit-testing a laid-out shape tests the point against the laid-out
      rectangle and leaves the cache unchanged. */
  lemma HitTestAfterLayout(s: Shape, id: ViewID, sz: Size, pt: Point, cx: Context, inside: Region)
    ensures var cx1 := Layout(s, id, sz, cx).1;
            var (hit, cx2) := HitTest(s, id, pt, cx1, inside);
            && cx2 == cx1
            && (hit == Some(id) <==> inside(s, Rect(ZeroPoint, sz), pt))
            && (hit != Some(id) ==> hit == None)
  {
  }
}

=== FILE: views.dfy ===
/** The view tree of the toolkit and event routing through it.

    Views are immutable values; the only state is the store of cells. A
    state view holds a handle and a builder, and rebuilds its child from the
    cell's current value every time it is processed. A stack processes its
    children in declaration order, each one seeing the store its
    predecessors left. A button runs its callback when the pressed label is
    its own text.
 */
module Views {
  import opened Cells
  import opened Callbacks
  import opened Format

  datatype Event = PressButton(name: string)

  datatype View =
    | EmptyView
    | Text(text: string)
    | Button(text: string, callback: Callback)
    | Stack(children: seq<View>)
    | StateView(state: State, builder: Builder)

  /** The closure `Fn(State<S>) -> V` of a state view, from a closed set.
      Applied to the view's handle and the cell's current value, each form
      yields: `Fixed(v)` the view `v` whatever the value; `ValueText(p)` a
      text reading `p` followed by the value; `ValueButton(op)` a button
      labelled with the value whose callback applies `op` to the handle;
      `BoundButton(t, op)` a button labelled `t` applying `op` to the
      handle; `Build(parts)` a stack of what the parts yield, in order. */
  datatype Builder =
    | Fixed(view: View)
    | ValueText(prefix: string)
    | ValueButton(op: Op)
    | BoundButton(caption: string, op: Op)
    | Build(parts: seq<Builder>)

  /** Node count: the measure that bounds every traversal. */
  function Size(v: View): (n: nat)
    ensures n >= 1
    decreases v
  {
    match v
    case Stack(cs) => 1 + SizeAll(cs)
    case StateView(_, b) => 1 + BuilderSize(b)
    case _ => 1
  }

  function SizeAll(cs: seq<View>): (n: nat)
    ensures n >= 1
    decreases cs
  {
    if cs == [] then 1 else Size(cs[0]) + SizeAll(cs[1..])
  }

  function BuilderSize(b: Builder): (n: nat)
    ensures n >= 1
    decreases b
  {
    match b
    case Fixed(v) => Size(v)
    case Build(bs) => 1 + BuilderSizeAll(bs)
    case _ => 1
  }

  function BuilderSizeAll(bs: seq<Builder>): (n: nat)
    ensures n >= 1
    decreases bs
  {
    if bs == [] then 1 else BuilderSize(bs[0]) + BuilderSizeAll(bs[1..])
  }

  /** The cells a view may touch: the handles of its state views and the
      targets of its callbacks. */
  function Refs(v: View): set<CellRef>
    decreases v
  {
    match v
    case EmptyView => {}
    case Text(_) => {}
    case Button(_, cb) => Targets(cb)
    case Stack(cs) => RefsAll(cs)
    case StateView(h, b) => {h.cell} + BuilderRefs(b)
  }

  function RefsAll(cs: seq<View>): set<CellRef>
    decreases cs
  {
    if cs == [] then {} else Refs(cs[0]) + RefsAll(cs[1..])
  }

  /** The cells a builder's output may touch besides the bound one. */
  function BuilderRefs(b: Builder): set<CellRef>
    decreases b
  {
    match b
    case Fixed(v) => Refs(v)
    case Build(bs) => BuilderRefsAll(bs)
    case _ => {}
  }

  function BuilderRefsAll(bs: seq<Builder>): set<CellRef>
    decreases bs
  {
    if bs == [] then {} else BuilderRefs(bs[0]) + BuilderRefsAll(bs[1..])
  }

  /** Whether running the builder reads the bound cell (`*count.get()`). */
  predicate Reads(b: Builder)
    decreases b
  {
    match b
    case ValueText(_) => true
    case ValueButton(_) => true
    case Build(bs) => ReadsAll(bs)
    case _ => false
  }

  predicate ReadsAll(bs: seq<Builder>)
    decreases bs
  {
    bs != [] && (Reads(bs[0]) || ReadsAll(bs[1..]))
  }

  /** Runs the builder on handle `h` whose cell holds `value`. */
  function Instantiate(b: Builder, h: State, value: Usize): (r: View)
    ensures Size(r) == BuilderSize(b)
    ensures Refs(r) <= BuilderRefs(b) + {h.cell}
    decreases b
  {
    match b
    case Fixed(v) => v
    case ValueText(prefix) => Text(prefix + Decimal(value))
    case ValueButton(op) => Button(Decimal(value), Callback(op, h))
    case BoundButton(caption, op) => Button(caption, Callback(op, h))
    case Build(bs) => Stack(InstantiateAll(bs, h, value))
  }

  function InstantiateAll(bs: seq<Builder>, h: State, value: Usize): (r: seq<View>)
    ensures |r| == |bs|
    ensures SizeAll(r) == BuilderSizeAll(bs)
    ensures RefsAll(r) <= BuilderRefsAll(bs) + {h.cell}
    decreases bs
  {
    if bs == [] then []
    else
      var rest := InstantiateAll(bs[1..], h, value);
      var r := [Instantiate(bs[0], h, value)] + rest;
      assert r[0] == Instantiate(bs[0], h, value) && r[1..] == rest;
      r
  }

  /** The `state` constructor: a state view over a fresh cell holding
      `initial`. */
  function StateScope(st: CountStore, initial: Usize, b: Builder): (r: (View, CountStore))
    requires Valid(st)
    ensures r.0.StateView? && r.0.builder == b
    ensures !Allocated(st, r.0.state) && Allocated(r.1, r.0.state) && Valid(r.1)
    ensures Deref(r.1, r.0.state) == initial && !Borrowed(r.1, r.0.state)
    ensures forall c :: c in st.cells ==> c in r.1.cells && r.1.cells[c] == st.cells[c]
    ensures r.1.cells.Keys == st.cells.Keys + {r.0.state.cell}
  {
    var (h, st') := New(st, initial);
    (StateView(h, b), st')
  }

  /** `Stack::new`. */
  function NewStack(): (r: View)
    ensures r.Stack? && |r.children| == 0
  {
    Stack([])
  }

  /** `Stack::push`: one more child, at the end. */
  function Push(s: View, child: View): (r: View)
    requires s.Stack?
    ensures r.Stack? && |r.children| == |s.children| + 1
    ensures forall i :: 0 <= i < |s.children| ==> r.children[i] == s.children[i]
    ensures r.children[|s.children|] == child
  {
    Stack(s.children + [child])
  }

  /** `View::process`. */
  function Process(v: View, e: Event, st: CountStore): (r: Result<CountStore>)
    requires Refs(v) <= st.cells.Keys
    ensures r.Ok? ==> Frame(st, r.value, Refs(v))
    ensures Quiet(st) && r.Err? ==> !r.error.AlreadyBorrowed?
    decreases Size(v), 1
  {
    match v
    case EmptyView => Ok(st)
    case Text(_) => Ok(st)
    case Button(text, cb) => if e.name == text then Run(cb, st) else Ok(st)
    case Stack(cs) => ProcessAll(cs, e, st)
    case StateView(h, b) =>
      if Reads(b) && Borrowed(st, h) then Err(AlreadyBorrowed(h.cell))
      else Process(Instantiate(b, Clone(h), Deref(st, h)), e, st)
  }

  /** The children of a stack, first to last. */
  function ProcessAll(cs: seq<View>, e: Event, st: CountStore): (r: Result<CountStore>)
    requires RefsAll(cs) <= st.cells.Keys
    ensures r.Ok? ==> Frame(st, r.value, RefsAll(cs))
    ensures Quiet(st) && r.Err? ==> !r.error.AlreadyBorrowed?
    decreases SizeAll(cs), 0
  {
    if cs == [] then Ok(st)
    else
      match Process(cs[0], e, st)
      case Err(err) => Err(err)
      case Ok(st') => ProcessAll(cs[1..], e, st')
  }

  /** The same event delivered `n` times in a row; a failure stops the
      sequence. */
  function ProcessN(v: View, e: Event, st: CountStore, n: nat): (r: Result<CountStore>)
    requires Refs(v) <= st.cells.Keys
    ensures r.Ok? ==> r.value.cells.Keys == st.cells.Keys
    decreases n
  {
    if n == 0 then Ok(st)
    else
      match ProcessN(v, e, st, n - 1)
      case Err(err) => Err(err)
      case Ok(st') => Process(v, e, st')
  }

  /** The labels of the buttons `v` holds when its state views are rebuilt
      from `st`. */
  ghost function Labels(v: View, st: CountStore): set<string>
    requires Refs(v) <= st.cells.Keys
    decreases Size(v), 1
  {
    match v
    case Button(text, _) => {text}
    case Stack(cs) => LabelsAll(cs, st)
    case StateView(h, b) => Labels(Instantiate(b, h, Deref(st, h)), st)
    case _ => {}
  }

  ghost function LabelsAll(cs: seq<View>, st: CountStore): set<string>
    requires RefsAll(cs) <= st.cells.Keys
    decreases SizeAll(cs), 0
  {
    if cs == [] then {} else Labels(cs[0], st) + LabelsAll(cs[1..], st)
  }

  /** An empty view ignores every event. */
  lemma EmptyViewIgnoresEvents(e: Event, st: CountStore)
    ensures Process(EmptyView, e, st) == Ok(st)
  {
  }

  /** A text ignores every event, even one naming its own text. */
  lemma TextIgnoresEvents(text: string, e: Event, st: CountStore)
    ensures Process(Text(text), e, st) == Ok(st)
  {
  }

  /** A callback that, run now, would change the store. */
  predicate Effective(cb: Callback, st: CountStore)
    requires Targets(cb) <= st.cells.Keys
  {
    Run(cb, st).Ok? && Run(cb, st).value != st
  }

  /** A button changes the store exactly when the event names its text (and
      its callback has an effect); any other label leaves the store alone. */
  lemma ButtonFiresOnItsLabel(text: string, cb: Callback, e: Event, st: CountStore)
    requires Targets(cb) <= st.cells.Keys
    ensures e.name != text ==> Process(Button(text, cb), e, st) == Ok(st)
    ensures e.name == text ==> Process(Button(text, cb), e, st) == Run(cb, st)
    ensures Effective(cb, st) ==> (Process(Button(text, cb), e, st) != Ok(st) <==> e.name == text)
  {
  }

  /** An event that names no button of the (rebuilt) tree changes nothing. */
  lemma {:induction false} Unmatched(v: View, e: Event, st: CountStore)
    requires Refs(v) <= st.cells.Keys && Quiet(st)
    requires e.name !in Labels(v, st)
    ensures Process(v, e, st) == Ok(st)
    decreases Size(v), 1
  {
    match v
    case EmptyView =>
    case Text(_) =>
    case Button(_, _) =>
    case Stack(cs) => UnmatchedAll(cs, e, st);
    case StateView(h, b) => Unmatched(Instantiate(b, h, Deref(st, h)), e, st);
  }

  lemma {:induction false} UnmatchedAll(cs: seq<View>, e: Event, st: CountStore)
    requires RefsAll(cs) <= st.cells.Keys && Quiet(st)
    requires e.name !in LabelsAll(cs, st)
    ensures ProcessAll(cs, e, st) == Ok(st)
    decreases SizeAll(cs), 0
  {
    if cs != [] {
      Unmatched(cs[0], e, st);
      UnmatchedAll(cs[1..], e, st);
    }
  }

  /** Processing a concatenation of children processes the first part, then
      the second part on the store the first left. */
  lemma {:induction false} ProcessAllAppend(a: seq<View>, b: seq<View>, e: Event, st: CountStore)
    requires RefsAll(a + b) <= st.cells.Keys
    ensures RefsAll(a + b) == RefsAll(a) + RefsAll(b)
    ensures ProcessAll(a + b, e, st) ==
              match ProcessAll(a, e, st)
              case Err(err) => Err(err)
              case Ok(mid) => ProcessAll(b, e, mid)
    decreases |a|
  {
    RefsAllAppend(a, b);
    if a != [] {
      assert (a + b)[0] == a[0];
      assert (a + b)[1..] == a[1..] + b;
      match Process(a[0], e, st)
      case Err(_) =>
      case Ok(st') => ProcessAllAppend(a[1..], b, e, st');
    } else {
      assert a + b == b;
    }
  }

  lemma {:induction false} RefsAllAppend(a: seq<View>, b: seq<View>)
    ensures RefsAll(a + b) == RefsAll(a) + RefsAll(b)
    decreases |a|
  {
    if a == [] {
      assert a + b == b;
    } else {
      assert (a + b)[0] == a[0];
      assert (a + b)[1..] == a[1..] + b;
      RefsAllAppend(a[1..], b);
    }
  }

  lemma {:induction false} SizeAllAppend(a: seq<View>, b: seq<View>)
    ensures SizeAll(a + b) == SizeAll(a) + SizeAll(b) - 1
    decreases |a|
  {
    if a == [] {
      assert a + b == b;
    } else {
      assert (a + b)[0] == a[0];
      assert (a + b)[1..] == a[1..] + b;
      SizeAllAppend(a[1..], b);
    }
  }

  /** The first child is processed before the rest. */
  lemma {:induction false} ProcessAllCons(c: View, cs: seq<View>, e: Event, st: CountStore)
    requires Refs(c) + RefsAll(cs) <= st.cells.Keys
    ensures RefsAll([c] + cs) == Refs(c) + RefsAll(cs)
    ensures ProcessAll([c] + cs, e, st) ==
              match Process(c, e, st)
              case Err(err) => Err(err)
              case Ok(mid) => ProcessAll(cs, e, mid)
  {
    assert ([c] + cs)[0] == c && ([c] + cs)[1..] == cs;
  }

  /** A pushed child is processed after every child already in the stack. */
  lemma {:induction false} ProcessPush(s: View, child: View, e: Event, st: CountStore)
    requires s.Stack? && Refs(Push(s, child)) <= st.cells.Keys
    ensures Refs(Push(s, child)) == Refs(s) + Refs(child)
    ensures Process(Push(s, child), e, st) ==
              match Process(s, e, st)
              case Err(err) => Err(err)
              case Ok(mid) => Process(child, e, mid)
  {
    ProcessAllAppend(s.children, [child], e, st);
    assert [child][1..] == [];
    match Process(s, e, st)
    case Err(_) =>
    case Ok(mid) =>
  }

  /** A state view rebuilds its child from the cell's current value and
      hands the event to it. A builder that reads the cell fails fast when
      the cell is already borrowed; one that only captures the handle
      rebuilds regardless. */
  lemma StateViewRebuilds(h: State, b: Builder, e: Event, st: CountStore)
    requires Allocated(st, h) && BuilderRefs(b) <= st.cells.Keys
    ensures Reads(b) && Borrowed(st, h) ==>
              Process(StateView(h, b), e, st) == Err(AlreadyBorrowed(h.cell))
    ensures !(Reads(b) && Borrowed(st, h)) ==>
              Process(StateView(h, b), e, st) == Process(Instantiate(b, h, Deref(st, h)), e, st)
  {
  }
}
